=== FILE: README.md ===
# Colour-key background removal: a Dafny model

This project models the deterministic core of a small image service whose
endpoints remove an image's background, either with a pretrained segmentation
model or by colour keying, and report an image's dominant colours. What is
modelled is the logic written in the service itself (`backend/app.py`):

- the colour-key masker `remove_color_background`: decoding the `#RRGGBB`
  target, the per-channel bounds `max(t - tol, 0)` / `min(t + tol, 255)`, the
  in-range mask and the RGBA rewrite (matching pixels become `(0,0,0,0)`,
  the others keep their colour with alpha 255);
- output-format normalisation (upper-case, anything not `PNG`/`JPEG`/`WEBP`
  becomes `PNG`) and the request's colour check (`#` and length 7);
- the JPEG branch, which pastes an RGBA result onto a white RGB canvas
  through its own alpha and leaves any other mode alone;
- the `#rrggbb` formatting of dominant colours, which is what users feed back
  to the masker;
- data-URL framing `data:image/<fmt>;base64,<payload>` (section 3 of RFC 2397)
  and the header strip `text.split(',')[1]`;
- the decision sequence of the `/remove-color-background` handler: 400 for a
  missing image or colour, 400 for a colour failing the check, 500 when
  decoding, the hex decode or encoding fails, otherwise a framed result.

Modules, one per file: `Outcomes` (optional values), `Ascii` (ASCII
case mapping), `Pixels` (8-bit RGB/RGBA pixels, row-major grids, images),
`HexColor`, `ColorKey`, `OutputFormat`, `DataUrl`, `ColorEndpoint`.
Decoding and encoding images (base64, PIL, OpenCV) are library calls; they
enter `ColorEndpoint.RemoveColorBg` as function parameters `decode` and
`encode`.

The model follows the code wherever it departs from what one might expect
of such a service:

- The tolerance is not clamped to [1,100], and an out-of-range or non-numeric
  tolerance is not replaced by 30; the raw request value (30 only when the
  field is missing) reaches the bounds. A negative tolerance therefore
  matches nothing (`ColorKey.NegativeToleranceKeepsImage`), and every
  tolerance from 255 up to 2^63 − 256 removes every pixel
  (`ColorKey.FullToleranceClearsAll`); beyond that the source's 64-bit
  arithmetic wraps (see "## Left out").
- The colour check only looks at `#` and the length, so `#ZZZZZZ` passes it and
  then fails inside the hex decode, which is a 500; a non-hex colour is not rejected with a 400
  (`HexColor.CheckAdmitsUndecodable`, `ColorEndpoint.RemoveColorBg`).
- Requests are JSON bodies with base64 images, not multipart file uploads.
- The bounds do not always lie in [0,255]: with a negative tolerance the lower
  bound can exceed 255 and the upper bound can drop below 0. They lie in
  [0,255] whenever the tolerance is not negative (`ColorKey.ChannelBounds`).

## Model

| member | source | states |
|---|---|---|
| `HexColor.Slice` | backend/app.py:44-46 | Python slicing `s[i:j]`: never longer than `j - i`; the exact substring when the text reaches `j`, the tail from `i` when it ends between `i` and `j`, and empty when it ends before `i` |
| `HexColor.ParseHex` | backend/app.py:44-46 | `int(field, 16)` succeeds exactly on a non-empty run of hex digits; its value is below 16 to the power of the field length, a one-digit field is worth its digit and a two-digit field sixteen times the first digit plus the second |
| `HexColor.ParseColor` | backend/app.py:43-47 | on a 7-character string, decoding succeeds iff characters 1-6 are hex digits, and then red, green and blue are the base-16 values of characters 1-2, 3-4 and 5-6; fewer than 6 characters always fails |
| `HexColor.FormatByte` | backend/app.py:202 | `{:02x}` writes two hex digits whose base-16 value is the byte |
| `HexColor.FormatColor` | backend/app.py:202 | every formatted colour passes the request's `#`-and-length-7 check and is hex after the `#` |
| `HexColor.FormatThenParse` | backend/app.py:202 | formatting a byte triple and decoding it with the masker's positional decoder gives the same triple back |
| `HexColor.ParseThenFormat` | backend/app.py:43-47 | a checked colour string that decodes is the formatter's output of its decoded triple, up to letter case |
| `HexColor.ValidColorString` | backend/app.py:135 | a string passing the `#`-and-length check decodes exactly when everything after the `#` is hex digits |
| `HexColor.CheckAdmitsUndecodable` | backend/app.py:135 | `#ZZZZZZ` passes the request check yet cannot be decoded |
| `ColorKey.ChannelBounds` | backend/app.py:50-51 | lower bound never below 0, upper bound never above 255; for a non-negative tolerance both lie in [0,255] around the target; a negative tolerance gives an empty range |
| `ColorKey.ChannelMatches` | backend/app.py:53 | a channel is inside its bounds exactly when it differs from the target channel by at most the tolerance |
| `ColorKey.Matches` | backend/app.py:53 | `cv2.inRange` over three channels accepts a pixel exactly when every channel is within the tolerance of the target |
| `ColorKey.MatchIsSymmetric` | backend/app.py:50-53 | swapping the pixel and the target colour never changes whether the clamped-bounds test accepts |
| `ColorKey.SaturationKeepsMatch` | backend/app.py:50-53 | saturating the bounds to the 8-bit range never changes whether a channel matches |
| `ColorKey.MaskPixel` | backend/app.py:56-59 | the result has alpha 0 or 255; it is (0,0,0,0) iff the pixel is within tolerance; otherwise it is the pixel with alpha 255 |
| `ColorKey.MaskRow` | backend/app.py:53-59 | a row keeps its length; each pixel within tolerance is cleared and each other pixel keeps its colour at alpha 255 |
| `ColorKey.MaskGrid` | backend/app.py:53-62 | the result has the input's shape and binary alpha; pixels within tolerance become (0,0,0,0), others keep their RGB with alpha 255 |
| `ColorKey.RemoveColorBackground` | backend/app.py:37-63 | fails exactly when the target text does not decode; otherwise a same-shape binary-alpha image with matching pixels cleared and the rest opaque |
| `ColorKey.TargetIsRemoved` | backend/app.py:50-59 | a pixel equal to the target is removed for every non-negative tolerance |
| `ColorKey.WiderToleranceRemovesMore` | backend/app.py:50-53 | a pixel removed at one tolerance is removed at every larger one |
| `ColorKey.FullToleranceClearsAll` | backend/app.py:50-59 | from tolerance 255 up every pixel is cleared |
| `ColorKey.NoMatchKeepsImage` | backend/app.py:56-59 | if no pixel is within tolerance, the result is the input with alpha 255 everywhere |
| `ColorKey.NegativeToleranceKeepsImage` | backend/app.py:128 | the unclamped tolerance, when negative, removes nothing |
| `Ascii.Upper` | backend/app.py:129 | `.upper()` keeps the length, leaves no lower-case ASCII letter, raises each lower-case letter by the ASCII case offset and keeps every other character |
| `Ascii.Lower` | backend/app.py:35 | `.lower()` keeps the length, leaves no upper-case ASCII letter, lowers each upper-case letter by the ASCII case offset and keeps every other character |
| `OutputFormat.IsKnownFormat` | backend/app.py:131 | a recognised name is already upper-case, and its lower-case form is one of the media subtypes `png`, `jpeg`, `webp` |
| `OutputFormat.NormalizeFormat` | backend/app.py:129-132 | always one of PNG, JPEG, WEBP; a name recognised after upper-casing is kept upper-cased; an unrecognised or missing name gives PNG (the same code appears at lines 80-82) |
| `OutputFormat.NormalizeIdempotent` | backend/app.py:129-132 | normalising a normalised name changes nothing |
| `OutputFormat.NormalizeIgnoresCase` | backend/app.py:129 | lower- and upper-casing the requested name do not change the outcome |
| `OutputFormat.FlattenPixel` | backend/app.py:147-149 | pasting onto white through binary alpha: alpha 0 gives white, alpha 255 keeps the colour |
| `OutputFormat.FlattenRow` | backend/app.py:147-149 | a row keeps its length and each pixel is pasted onto white |
| `OutputFormat.FlattenGrid` | backend/app.py:147-150 | same shape; transparent pixels become white, opaque ones keep their colour |
| `OutputFormat.FlattenForJpeg` | backend/app.py:145-150 | an RGBA image becomes an RGB image of the same shape with alpha-0 pixels white and alpha-255 pixels unchanged; a non-RGBA image is returned untouched |
| `OutputFormat.ConvertForFormat` | backend/app.py:145-150 | only JPEG changes the image; for JPEG the result is the white-flattened image (RGBA pasted onto white, RGB passed through), always RGB |
| `DataUrl.Split` | backend/app.py:22 | `split(',')` yields at least one piece, at least two exactly when the text has a comma, and no piece holds a comma |
| `DataUrl.JoinSplit` | backend/app.py:22 | joining the pieces with commas gives the text back |
| `DataUrl.SplitJoin` | backend/app.py:22 | splitting a comma-join of comma-free pieces gives the pieces back |
| `DataUrl.Frame` | backend/app.py:35 | the result is the `data:image/<lower fmt>;base64,` header followed by exactly the payload |
| `DataUrl.StripHeader` | backend/app.py:21-22 | the result never holds a comma, and text without a comma is returned unchanged |
| `DataUrl.StripKeepsSecondPiece` | backend/app.py:21-22 | after a comma-free header only the payload up to its first comma survives, and that is a prefix of the payload |
| `DataUrl.StripFrame` | backend/app.py:21-35 | stripping a framed base64 payload, for any comma-free format name, returns the payload |
| `ColorEndpoint.ColorPipeline` | backend/app.py:142-150 | the encoder's input is the masked RGBA image for PNG and WEBP; for JPEG it is an RGB image where removed pixels are white and every other pixel is the input's |
| `ColorEndpoint.RemoveColorBg` | backend/app.py:117-165 | 400 iff image or colour is missing or the colour fails the check, with the matching message; 500 iff those pass but decoding, the hex decode or encoding the pipeline image fails; a success echoes colour and tolerance (default 30), carries a recognised format, and its result starts with that format's data-URL header |
| `ColorEndpoint.SuccessCarriesPipelineImage` | backend/app.py:139-153 | a successful result is the framed encoding of the masked (and, for JPEG, flattened) decoded image, which the encoder accepted |
| `ColorEndpoint.FlattenUndoesOpaque` | backend/app.py:147-150 | flattening a fully opaque image onto white gives its colours back |
| `ColorEndpoint.NoMatchJpegIsInput` | backend/app.py:142-150 | when no pixel is within tolerance the JPEG output image is the input image itself |
| `ColorEndpoint.FormatPalette` | backend/app.py:199-203 | one string per cluster centre, in order; each passes the colour check and decodes back to its centre |
| `ColorEndpoint.PaletteColourRemovesItself` | backend/app.py:169 | a reported dominant colour, fed back as the masker's target, removes every pixel of exactly that colour |
| `ColorEndpoint.SolidImageVanishes` | backend/app.py:50-59 | a single-colour image keyed on its own colour becomes all transparent |
| `ColorEndpoint.ClearFlattensToWhite` | backend/app.py:147-150 | an all-transparent image flattens to all white |
| `ColorEndpoint.SolidImageRequest` | backend/app.py:117-162 | a single-colour image keyed on its own colour: all transparent as PNG or WEBP, all white as JPEG, with the request's colour and tolerance echoed, whenever the encoder accepts that image |
| `ColorEndpoint.SolidRedAsPng` | backend/app.py:117-162 | a 10×10 red image keyed on `#FF0000` with tolerance 10 and format `png` yields a fully transparent 10×10 PNG, whenever the encoder accepts it |
| `ColorEndpoint.SolidRedAsJpeg` | backend/app.py:117-162 | the same request with format `jpeg` yields a fully white 10×10 JPEG, whenever the encoder accepts it |

## Left out

- The Flask application, routes, CORS, environment loading, port and debug configuration, and the health endpoint: HTTP and process plumbing.
- The `/remove-background` handler's segmentation call (rembg): an opaque pretrained model. Its format normalisation is the same code as the colour handler's and is covered by `OutputFormat.NormalizeFormat`.
- OutputFormat.FlattenForJpeg: requires binary alpha, because compositing fractional alpha (the segmentation model's output) rounds inside PIL, whose arithmetic is not part of this model; the masker's output always has binary alpha.
- The `/get-dominant-colors` handler's mode conversion, `thumbnail((150, 150))` and KMeans clustering: library code with floating-point centres. Only the formatting of already integral byte triples is modelled (`ColorEndpoint.FormatPalette`).
- Base64 encoding and decoding, PIL/OpenCV image decoding and encoding, and lossy JPEG/WEBP compression at quality 95: foreign calls, passed to `ColorEndpoint.RemoveColorBg` as the `decode` and `encode` parameters, either of which may fail. When the library's encoder fails (for instance on the `quality=None` argument passed for non-JPEG output) is not modelled.
- ColorKey.RemoveColorBackground: takes 3-channel RGB pixels; how OpenCV's `cvtColor` treats other PIL modes (grey, palette, RGBA) at line 40 is library behaviour and is not modelled. The BGR channel shuffles are a consistent permutation and are folded away.
- HexColor.ParseColor: treats a sign, whitespace or underscore inside a field as an error, whereas Python's `int(..., 16)` accepts some of them (`#-f0000` decodes to a negative channel), and Python also accepts non-ASCII decimal digits such as fullwidth `１`, so `#１２３４５６` decodes in Python while the model reports a failure.
- ColorKey.ChannelBounds: the tolerance and the bounds are unbounded integers, whereas lines 43-51 compute `t - tol` and `t + tol` in NumPy's wrapping 64-bit arithmetic (and OpenCV may narrow the bounds further when it converts them); for a tolerance where `t ± tol` leaves that range (e.g. 9223372036854775807, whose upper bound wraps negative so nothing is removed) the model does not promise the source's result. A non-integer JSON tolerance is not modelled either.
- ColorKey.TargetIsRemoved: holds on unbounded integers only; for tolerances whose `t ± tol` overflows 64 bits the source may keep the target colour (see the ChannelBounds line).
- ColorKey.FullToleranceClearsAll: holds on unbounded integers only; once `t + tol` leaves the 64-bit range the source's upper bound wraps, so it may keep pixels the model clears.
- ColorKey.NegativeToleranceKeepsImage: holds on unbounded integers only; a negative tolerance whose bounds wrap or are narrowed by OpenCV (e.g. -4294967296 narrowed to 32 bits) may remove target pixels in the source.
- ColorKey.WiderToleranceRemovesMore: holds on unbounded integers only; in the source a pixel removed at a small tolerance can be kept at one whose `t ± tol` overflows 64 bits (red keyed on `#FF0000` is removed at 10, kept at 2^63 − 1).
- ColorEndpoint.PaletteColourRemovesItself: holds on unbounded integers only; for tolerances whose `t ± tol` overflows 64 bits the source may keep pixels of the palette colour.
- ColorEndpoint.SolidImageVanishes: holds on unbounded integers only; for tolerances whose `t ± tol` overflows 64 bits the source may keep pixels of the image's colour.
- ColorEndpoint.SolidImageRequest: inherits the unbounded-tolerance assumption above; a tolerance overflowing 64 bits is not covered.
- OutputFormat.NormalizeFormat: upper-cases ASCII letters only; Python's Unicode case mapping of other characters and a non-string `format` value (which raises) are not modelled.
- ColorEndpoint.RemoveColorBg: the `image` and `color` fields are strings; a non-string value makes Python raise at line 21 or 135, a 500 that is not modelled.
- The JSON response bodies and error texts of 500 replies: a 500 is modelled as one outcome without its message.

=== FILE: ascii.dfy ===
/** ASCII case mapping, the part of Python's `str.upper` / `str.lower` the model relies on. */
module Ascii {

  function UpperChar(c: char): char {
    if 'a' <= c <= 'z' then (c as int - 'a' as int + 'A' as int) as char else c
  }

  function LowerChar(c: char): char {
    if 'A' <= c <= 'Z' then (c as int - 'A' as int + 'a' as int) as char else c
  }

  /** `s.upper()` restricted to ASCII letters. */
  function Upper(s: string): (u: string)
    ensures |u| == |s|
    ensures forall i :: 0 <= i < |u| ==> !('a' <= u[i] <= 'z')
    ensures forall i :: 0 <= i < |s| && !('a' <= s[i] <= 'z') ==> u[i] == s[i]
    ensures forall i :: 0 <= i < |s| && 'a' <= s[i] <= 'z' ==> u[i] as int == s[i] as int - 32
  {
    seq(|s|, i requires 0 <= i < |s| => UpperChar(s[i]))
  }

  /** `s.lower()` restricted to ASCII letters. */
  function Lower(s: string): (l: string)
    ensures |l| == |s|
    ensures forall i :: 0 <= i < |l| ==> !('A' <= l[i] <= 'Z')
    ensures forall i :: 0 <= i < |s| && !('A' <= s[i] <= 'Z') ==> l[i] == s[i]
    ensures forall i :: 0 <= i < |s| && 'A' <= s[i] <= 'Z' ==> l[i] as int == s[i] as int + 32
  {
    seq(|s|, i requires 0 <= i < |s| => LowerChar(s[i]))
  }

  /** Upper-casing forgets the case the text arrived in. */
  lemma UpperIgnoresCase(s: string)
    ensures Upper(Lower(s)) == Upper(s)
    ensures Upper(Upper(s)) == Upper(s)
  {
  }
}

=== FILE: color_endpoint.dfy ===
/**
 * The decision logic of the `/remove-color-background` request handler
 * (`remove_color_bg`) and the colour formatting of `/get-dominant-colors`.
 * Image decoding and encoding are library calls and enter as parameters.
 */
module ColorEndpoint {
  import opened Outcomes
  import opened Pixels
  import opened HexColor
  import opened ColorKey
  import opened OutputFormat
  import opened DataUrl

  /** The fields of the JSON request body; `None` is a missing field. */
  datatype ColorRequest = ColorRequest(
    image: Option<string>,
    color: Option<string>,
    tolerance: Option<int>,
    format: Option<string>)

  /** The handler's outcomes: 200 with its fields, 400 with its message, or 500. */
  datatype Reply =
    | Success(result: string, format: string, colorRemoved: string, tolerance: int)
    | BadRequest(message: string)
    | ProcessingFailed

  const MissingFields := "Image and target color are required"
  const BadColorFormat := "Invalid color format. Use #RRGGBB"

  /** The tolerance used when the request gives none. */
  const DefaultTolerance := 30

  /**
   * The image handed to the encoder: the masker's RGBA result, flattened onto
   * white when the output is JPEG.
   */
  function ColorPipeline(g: Grid<Rgb>, target: Rgb, tol: int, format: string): (out: Image)
    ensures format != "JPEG" ==> out.RgbaImage? && SameShape(g, out.rgba)
    ensures format != "JPEG" ==> forall i, j :: 0 <= i < |g| && 0 <= j < |g[i]| ==>
      out.rgba[i][j] == if WithinTolerance(g[i][j], target, tol) then Clear else Opaque(g[i][j])
    ensures format == "JPEG" ==> out.RgbImage? && SameShape(g, out.rgb)
    ensures format == "JPEG" ==> forall i, j :: 0 <= i < |g| && 0 <= j < |g[i]| ==>
      out.rgb[i][j] == if WithinTolerance(g[i][j], target, tol) then White else g[i][j]
  {
    ConvertForFormat(RgbaImage(MaskGrid(g, target, tol)), format)
  }

  /**
   * `remove_color_bg`. `decode` stands for base64 decoding plus image opening
   * of the header-stripped text, `encode` for saving in the chosen format
   * plus base64 encoding; each gives `None` where it raises.
   */
  function RemoveColorBg(
    req: ColorRequest,
    decode: string -> Option<Grid<Rgb>>,
    encode: (Image, string) -> Option<string>): (reply: Reply)
    ensures reply.BadRequest? <==> req.image.None? || req.color.None? || !ValidColorString(req.color.value)
    ensures reply.BadRequest? ==>
      reply.message == if req.image.None? || req.color.None? then MissingFields else BadColorFormat
    ensures reply.ProcessingFailed? <==>
      && req.image.Some? && req.color.Some? && ValidColorString(req.color.value)
      && (|| decode(StripHeader(req.image.value)).None?
          || ParseColor(req.color.value).None?
          || encode(ColorPipeline(decode(StripHeader(req.image.value)).value, ParseColor(req.color.value).value,
                                  req.tolerance.GetOr(DefaultTolerance), NormalizeFormat(req.format)),
                    NormalizeFormat(req.format)).None?)
    ensures reply.Success? ==>
      && IsKnownFormat(reply.format)
      && reply.format == NormalizeFormat(req.format)
      && reply.colorRemoved == req.color.value
      && reply.tolerance == req.tolerance.GetOr(DefaultTolerance)
      && |Header(reply.format)| <= |reply.result|
      && reply.result[..|Header(reply.format)|] == Header(reply.format)
  {
    if req.image.None? || req.color.None? then BadRequest(MissingFields)
    else
      var targetColor := req.color.value;
      var tol := req.tolerance.GetOr(DefaultTolerance);
      var format := NormalizeFormat(req.format);
      if !ValidColorString(targetColor) then BadRequest(BadColorFormat)
      else
        match decode(StripHeader(req.image.value))
        case None => ProcessingFailed
        case Some(g) =>
          match RemoveColorBackground(g, targetColor, tol)
          case None => ProcessingFailed
          case Some(masked) =>
            var out := ConvertForFormat(RgbaImage(masked), format);
            match encode(out, format)
            case None => ProcessingFailed
            case Some(payload) => Success(Frame(format, payload), format, targetColor, tol)
  }

  /** On success the reply carries exactly the framed encoding of the pipeline's image. */
  lemma SuccessCarriesPipelineImage(
    req: ColorRequest,
    decode: string -> Option<Grid<Rgb>>,
    encode: (Image, string) -> Option<string>)
    requires RemoveColorBg(req, decode, encode).Success?
    ensures var reply := RemoveColorBg(req, decode, encode);
            var g := decode(StripHeader(req.image.value)).value;
            var target := ParseColor(req.color.value).value;
            var payload := encode(ColorPipeline(g, target, reply.tolerance, reply.format), reply.format);
            payload.Some? && reply.result == Frame(reply.format, payload.value)
  {
  }

  /** Flattening a fully opaque image gives back its colours: the JPEG step loses nothing the masker kept. */
  lemma FlattenUndoesOpaque(g: Grid<Rgb>)
    ensures FlattenGrid(OpaqueGrid(g)) == g
  {
    var f := FlattenGrid(OpaqueGrid(g));
    forall i | 0 <= i < |g| ensures f[i] == g[i] {
      assert |f[i]| == |g[i]|;
      forall j | 0 <= j < |g[i]| ensures f[i][j] == g[i][j] {
      }
    }
  }

  /** When no pixel is within tolerance, the JPEG result is the input image itself. */
  lemma NoMatchJpegIsInput(g: Grid<Rgb>, target: Rgb, tol: int)
    requires forall i, j :: 0 <= i < |g| && 0 <= j < |g[i]| ==> !WithinTolerance(g[i][j], target, tol)
    ensures ColorPipeline(g, target, tol, "JPEG") == RgbImage(g)
  {
    NoMatchKeepsImage(g, target, tol);
    FlattenUndoesOpaque(g);
  }

  /** `'#{:02x}{:02x}{:02x}'` over each cluster centre, in order. */
  function FormatPalette(centres: seq<Rgb>): (hex: seq<string>)
    ensures |hex| == |centres|
    ensures forall k :: 0 <= k < |centres| ==> ValidColorString(hex[k])
    ensures forall k :: 0 <= k < |centres| ==> ParseColor(hex[k]) == Some(centres[k])
  {
    if |centres| == 0 then []
    else
      FormatThenParse(centres[0]);
      [FormatColor(centres[0])] + FormatPalette(centres[1..])
  }

  /**
   * A dominant colour fed back to the masker as its target removes every pixel
   * of exactly that colour, for any tolerance that is not negative.
   */
  lemma PaletteColourRemovesItself(
    centres: seq<Rgb>, k: nat, g: Grid<Rgb>, tol: int, i: nat, j: nat)
    requires k < |centres| && tol >= 0
    requires i < |g| && j < |g[i]| && g[i][j] == centres[k]
    ensures var out := RemoveColorBackground(g, FormatPalette(centres)[k], tol);
            out.Some? && out.value[i][j] == Clear
  {
  }

  /** A single-colour image keyed on its own colour, with a tolerance that is not negative, becomes all transparent. */
  lemma SolidImageVanishes(width: nat, height: nat, c: Rgb, tol: int)
    requires tol >= 0
    ensures MaskGrid(Solid(width, height, c), c, tol) == Solid(width, height, Clear)
  {
    var m := MaskGrid(Solid(width, height, c), c, tol);
    var e := Solid(width, height, Clear);
    forall i | 0 <= i < height ensures m[i] == e[i] {
      assert |m[i]| == width;
    }
  }

  /** An all-transparent image flattened for JPEG is all white. */
  lemma ClearFlattensToWhite(width: nat, height: nat)
    ensures FlattenGrid(Solid(width, height, Clear)) == Solid(width, height, White)
  {
    var f := FlattenGrid(Solid(width, height, Clear));
    var e := Solid(width, height, White);
    forall i | 0 <= i < height ensures f[i] == e[i] {
      assert |f[i]| == width;
    }
  }

  lemma RedParses()
    ensures ParseColor("#FF0000") == Some(Rgb(255, 0, 0))
  {
    assert "#FF0000"[1..7] == "FF0000";
  }

  /**
   * A single-colour image keyed on its own colour with a tolerance that is not
   * negative: all transparent as PNG or WEBP, all white as JPEG.
   */
  lemma SolidImageRequest(
    width: nat, height: nat, colorText: string, tol: int, format: Option<string>,
    encode: (Image, string) -> Option<string>)
    requires ValidColorString(colorText) && ParseColor(colorText).Some? && tol >= 0
    requires var f := NormalizeFormat(format);
             encode(if f == "JPEG" then RgbImage(Solid(width, height, White))
                    else RgbaImage(Solid(width, height, Clear)), f).Some?
    ensures var c := ParseColor(colorText).value;
            var req := ColorRequest(Some("img"), Some(colorText), Some(tol), format);
            var f := NormalizeFormat(format);
            var expected := if f == "JPEG" then RgbImage(Solid(width, height, White))
                            else RgbaImage(Solid(width, height, Clear));
            RemoveColorBg(req, _ => Some(Solid(width, height, c)), encode)
              == Success(Frame(f, encode(expected, f).value), f, colorText, tol)
  {
    var c := ParseColor(colorText).value;
    SolidImageVanishes(width, height, c, tol);
    ClearFlattensToWhite(width, height);
  }

  /** Ten by ten solid red, keyed on `#FF0000` with tolerance 10, as PNG: all transparent. */
  lemma SolidRedAsPng(encode: (Image, string) -> Option<string>)
    requires encode(RgbaImage(Solid(10, 10, Clear)), "PNG").Some?
    ensures var req := ColorRequest(Some("img"), Some("#FF0000"), Some(10), Some("png"));
            RemoveColorBg(req, _ => Some(Solid(10, 10, Rgb(255, 0, 0))), encode)
              == Success(Frame("PNG", encode(RgbaImage(Solid(10, 10, Clear)), "PNG").value), "PNG", "#FF0000", 10)
  {
    RedParses();
    assert Ascii.Upper("png") == "PNG";
    SolidImageRequest(10, 10, "#FF0000", 10, Some("png"), encode);
  }

  /** The same request with JPEG output: all white. */
  lemma SolidRedAsJpeg(encode: (Image, string) -> Option<string>)
    requires encode(RgbImage(Solid(10, 10, White)), "JPEG").Some?
    ensures var req := ColorRequest(Some("img"), Some("#FF0000"), Some(10), Some("jpeg"));
            RemoveColorBg(req, _ => Some(Solid(10, 10, Rgb(255, 0, 0))), encode)
              == Success(Frame("JPEG", encode(RgbImage(Solid(10, 10, White)), "JPEG").value), "JPEG", "#FF0000", 10)
  {
    RedParses();
    assert Ascii.Upper("jpeg") == "JPEG";
    SolidImageRequest(10, 10, "#FF0000", 10, Some("jpeg"), encode);
  }
}

=== FILE: color_key.dfy ===
/**
 * The colour-key masker (`remove_color_background`): every pixel whose three
 * channels all lie inside the per-channel bounds around the target colour
 * becomes fully transparent, every other pixel keeps its colour and becomes
 * fully opaque. OpenCV's BGR channel order is a consistent permutation of
 * target and pixel alike, so the model works on RGB directly.
 */
module ColorKey {
  import opened Outcomes
  import opened Pixels
  import HexColor

  /** Inclusive channel bounds, as handed to `cv2.inRange`. */
  datatype Bounds = Bounds(lo: int, hi: int)

  function Abs(x: int): nat {
    if x < 0 then -x else x
  }

  /**
   * `max(t - tol, 0)` and `min(t + tol, 255)`. The tolerance is the raw request
   * value and is not clamped, so a negative tolerance is possible.
   */
  function ChannelBounds(t: byte, tol: int): (b: Bounds)
    ensures 0 <= b.lo && b.hi <= 255
    ensures tol >= 0 ==> 0 <= b.lo <= t <= b.hi <= 255
    ensures tol < 0 ==> b.lo > b.hi
  {
    Bounds(if t - tol > 0 then t - tol else 0, if t + tol < 255 then t + tol else 255)
  }

  /** One channel of `cv2.inRange`: within the bounds around `t`, which is being within `tol` of `t`. */
  function ChannelMatches(c: byte, t: byte, tol: int): (m: bool)
    ensures m <==> Abs(c - t) <= tol
  {
    var b := ChannelBounds(t, tol);
    b.lo <= c <= b.hi
  }

  /** The mask of `cv2.inRange`: all three channels inside their bounds. */
  function Matches(p: Rgb, target: Rgb, tol: int): (m: bool)
    ensures m <==> WithinTolerance(p, target, tol)
  {
    ChannelMatches(p.r, target.r, tol) && ChannelMatches(p.g, target.g, tol) && ChannelMatches(p.b, target.b, tol)
  }

  /** The reference reading of a match: no channel differs from the target by more than `tol`. */
  predicate WithinTolerance(p: Rgb, target: Rgb, tol: int) {
    Abs(p.r - target.r) <= tol && Abs(p.g - target.g) <= tol && Abs(p.b - target.b) <= tol
  }

  /**
   * The clamped bounds are placed around the target, not the pixel, yet the
   * test does not care which of the two is the key colour.
   */
  lemma MatchIsSymmetric(p: Rgb, target: Rgb, tol: int)
    ensures Matches(p, target, tol) <==> Matches(target, p, tol)
  {
  }

  /** A bound saturated to the 8-bit range, as OpenCV converts bounds for an 8-bit image. */
  function Saturate(x: int): byte {
    if x < 0 then 0 else if x > 255 then 255 else x
  }

  /** Saturating the bounds to 8 bits never changes whether a channel value lies between them. */
  lemma SaturationKeepsMatch(c: byte, t: byte, tol: int)
    ensures var b := ChannelBounds(t, tol);
            (b.lo <= c <= b.hi) <==> (Saturate(b.lo) <= c <= Saturate(b.hi))
  {
  }

  /** One pixel of the masker's RGBA result. */
  function MaskPixel(p: Rgb, target: Rgb, tol: int): (q: Rgba)
    ensures q.a == 0 || q.a == 255
    ensures q == Clear <==> WithinTolerance(p, target, tol)
    ensures q != Clear ==> q == Opaque(p)
  {
    if Matches(p, target, tol) then Clear else Opaque(p)
  }

  function MaskRow(row: seq<Rgb>, target: Rgb, tol: int): (out: seq<Rgba>)
    ensures |out| == |row|
    ensures forall j :: 0 <= j < |row| ==>
      out[j] == if WithinTolerance(row[j], target, tol) then Clear else Opaque(row[j])
  {
    if |row| == 0 then []
    else [MaskPixel(row[0], target, tol)] + MaskRow(row[1..], target, tol)
  }

  /**
   * The masker over a whole image: same shape, binary alpha, matching pixels
   * cleared to (0,0,0,0) and the others kept with alpha 255.
   */
  function MaskGrid(g: Grid<Rgb>, target: Rgb, tol: int): (m: Grid<Rgba>)
    ensures SameShape(g, m)
    ensures BinaryAlpha(m)
    ensures forall i, j :: 0 <= i < |g| && 0 <= j < |g[i]| ==>
      m[i][j] == if WithinTolerance(g[i][j], target, tol) then Clear else Opaque(g[i][j])
  {
    if |g| == 0 then []
    else [MaskRow(g[0], target, tol)] + MaskGrid(g[1..], target, tol)
  }

  /**
   * `remove_color_background`: decode the target text, then mask. `None` is
   * the exception `int(..., 16)` raises on a field that is not hex.
   */
  function RemoveColorBackground(g: Grid<Rgb>, targetColor: string, tol: int): (out: Option<Grid<Rgba>>)
    ensures out.Some? <==> HexColor.ParseColor(targetColor).Some?
    ensures out.Some? ==> SameShape(g, out.value) && BinaryAlpha(out.value)
    ensures out.Some? ==> forall i, j :: 0 <= i < |g| && 0 <= j < |g[i]| ==>
      var target := HexColor.ParseColor(targetColor).value;
      out.value[i][j] == if WithinTolerance(g[i][j], target, tol) then Clear else Opaque(g[i][j])
  {
    match HexColor.ParseColor(targetColor)
    case None => None
    case Some(target) => Some(MaskGrid(g, target, tol))
  }

  /** A pixel of exactly the target colour is removed whenever the tolerance is not negative. */
  lemma TargetIsRemoved(g: Grid<Rgb>, target: Rgb, tol: int, i: nat, j: nat)
    requires tol >= 0
    requires i < |g| && j < |g[i]| && g[i][j] == target
    ensures MaskGrid(g, target, tol)[i][j] == Clear
  {
  }

  /** Widening the tolerance never brings a removed pixel back. */
  lemma WiderToleranceRemovesMore(g: Grid<Rgb>, target: Rgb, tol1: int, tol2: int, i: nat, j: nat)
    requires tol1 <= tol2
    requires i < |g| && j < |g[i]|
    requires MaskGrid(g, target, tol1)[i][j] == Clear
    ensures MaskGrid(g, target, tol2)[i][j] == Clear
  {
  }

  /** From 255 up every pixel is removed, so all such tolerances give the same image. */
  lemma FullToleranceClearsAll(g: Grid<Rgb>, target: Rgb, tol: int)
    requires tol >= 255
    ensures forall i, j :: 0 <= i < |g| && 0 <= j < |g[i]| ==> MaskGrid(g, target, tol)[i][j] == Clear
  {
  }

  /** The input with alpha 255 on every pixel: what the masker yields when nothing matches. */
  function OpaqueGrid(g: Grid<Rgb>): (m: Grid<Rgba>)
    ensures SameShape(g, m)
    ensures forall i, j :: 0 <= i < |g| && 0 <= j < |g[i]| ==> m[i][j] == Opaque(g[i][j])
  {
    seq(|g|, i requires 0 <= i < |g| => seq(|g[i]|, j requires 0 <= j < |g[i]| => Opaque(g[i][j])))
  }

  /** When no pixel is within tolerance, the result is the input made fully opaque. */
  lemma NoMatchKeepsImage(g: Grid<Rgb>, target: Rgb, tol: int)
    requires forall i, j :: 0 <= i < |g| && 0 <= j < |g[i]| ==> !WithinTolerance(g[i][j], target, tol)
    ensures MaskGrid(g, target, tol) == OpaqueGrid(g)
  {
    var m := MaskGrid(g, target, tol);
    var o := OpaqueGrid(g);
    forall i | 0 <= i < |g| ensures m[i] == o[i] {
      assert |m[i]| == |o[i]|;
      forall j | 0 <= j < |g[i]| ensures m[i][j] == o[i][j] {
      }
    }
  }

  /** A negative tolerance removes nothing. */
  lemma NegativeToleranceKeepsImage(g: Grid<Rgb>, target: Rgb, tol: int)
    requires tol < 0
    ensures MaskGrid(g, target, tol) == OpaqueGrid(g)
  {
    NoMatchKeepsImage(g, target, tol);
  }
}

=== FILE: data_url.dfy ===
/**
 * Data-URL framing of the transported images: `image_to_base64` builds
 * `data:image/<fmt>;base64,<payload>` (the data URL syntax of section 3 of
 * RFC 2397) and `base64_to_image` strips a header by keeping
 * `text.split(',')[1]` whenever the text holds a comma.
 */
module DataUrl {
  import opened Ascii

  /** Python's `s.split(sep)`: the pieces between separators, in order. */
  function Split(s: string, sep: char): (parts: seq<string>)
    ensures |parts| >= 1
    ensures (sep in s) <==> |parts| >= 2
    ensures forall k :: 0 <= k < |parts| ==> sep !in parts[k]
    decreases |s|
  {
    if |s| == 0 then [""]
    else
      var rest := Split(s[1..], sep);
      if s[0] == sep then [""] + rest
      else [[s[0]] + rest[0]] + rest[1..]
  }

  /** Python's `sep.join(parts)`. */
  function Join(parts: seq<string>, sep: char): (s: string)
    requires |parts| >= 1
    decreases |parts|
  {
    if |parts| == 1 then parts[0] else parts[0] + [sep] + Join(parts[1..], sep)
  }

  /** Joining the pieces of a split gives the text back. */
  lemma {:induction false} JoinSplit(s: string, sep: char)
    ensures Join(Split(s, sep), sep) == s
    decreases |s|
  {
    if |s| > 0 {
      var rest := Split(s[1..], sep);
      JoinSplit(s[1..], sep);
      if s[0] == sep {
        assert [s[0]] + s[1..] == s;
      } else {
        var parts := [[s[0]] + rest[0]] + rest[1..];
        if |rest| == 1 {
          assert parts == [[s[0]] + rest[0]];
          assert rest[0] == s[1..];
        } else {
          assert parts[1..] == rest[1..];
          assert Join(rest, sep) == rest[0] + [sep] + Join(rest[1..], sep);
          assert s == [s[0]] + s[1..];
        }
      }
    }
  }

  /** A separator-free first piece splits off unchanged. */
  lemma {:induction false} SplitAfterPiece(a: string, t: string, sep: char)
    requires sep !in a
    ensures Split(a + [sep] + t, sep) == [a] + Split(t, sep)
    decreases |a|
  {
    if |a| == 0 {
      assert a + [sep] + t == [sep] + t;
      assert ([sep] + t)[1..] == t;
    } else {
      var s := a + [sep] + t;
      assert s[1..] == a[1..] + [sep] + t;
      SplitAfterPiece(a[1..], t, sep);
      assert [a[0]] + a[1..] == a;
    }
  }

  /** A text without the separator is one piece. */
  lemma {:induction false} SplitWithoutSeparator(s: string, sep: char)
    requires sep !in s
    ensures Split(s, sep) == [s]
    decreases |s|
  {
    if |s| > 0 {
      SplitWithoutSeparator(s[1..], sep);
      assert [s[0]] + s[1..] == s;
    }
  }

  /** Splitting a join of separator-free pieces gives the pieces back. */
  lemma {:induction false} SplitJoin(parts: seq<string>, sep: char)
    requires |parts| >= 1
    requires forall k :: 0 <= k < |parts| ==> sep !in parts[k]
    ensures Split(Join(parts, sep), sep) == parts
    decreases |parts|
  {
    if |parts| == 1 {
      SplitWithoutSeparator(parts[0], sep);
    } else {
      SplitJoin(parts[1..], sep);
      SplitAfterPiece(parts[0], Join(parts[1..], sep), sep);
      assert [parts[0]] + parts[1..] == parts;
    }
  }

  /** The media-type header `image_to_base64` puts in front of the payload. */
  function Header(format: string): string {
    "data:image/" + Lower(format) + ";base64,"
  }

  /** `image_to_base64`'s framing of an already encoded payload. */
  function Frame(format: string, payload: string): (url: string)
    ensures |url| == |Header(format)| + |payload|
    ensures url[..|Header(format)|] == Header(format) && url[|Header(format)|..] == payload
  {
    Header(format) + payload
  }

  /** `base64_to_image`'s header removal: the second comma-separated piece if there is a comma. */
  function StripHeader(text: string): (payload: string)
    ensures ',' !in payload
    ensures ',' !in text ==> payload == text
  {
    if ',' in text then Split(text, ',')[1] else text
  }

  /**
   * With a comma-free header, only the text up to the next comma survives:
   * a payload that itself held a comma would be cut there.
   */
  lemma StripKeepsSecondPiece(lead: string, rest: string)
    requires ',' !in lead
    ensures StripHeader(lead + [','] + rest) == Split(rest, ',')[0]
    ensures StripHeader(lead + [','] + rest) <= rest
  {
    SplitAfterPiece(lead, rest, ',');
    JoinSplit(rest, ',');
    var parts := Split(rest, ',');
    if |parts| > 1 {
      assert rest == parts[0] + [','] + Join(parts[1..], ',');
    }
  }

  /** The characters of standard base64 text, padding included. */
  predicate IsBase64Char(c: char) {
    ('A' <= c <= 'Z') || ('a' <= c <= 'z') || ('0' <= c <= '9') || c == '+' || c == '/' || c == '='
  }

  predicate IsBase64Text(s: string) {
    forall i :: 0 <= i < |s| ==> IsBase64Char(s[i])
  }

  /**
   * Stripping a framed payload gives the payload back, for any format name
   * without a comma and any base64 payload.
   */
  lemma StripFrame(format: string, payload: string)
    requires ',' !in format
    requires IsBase64Text(payload)
    ensures StripHeader(Frame(format, payload)) == payload
  {
    var lead := "data:image/" + Lower(format) + ";base64";
    assert ',' !in Lower(format) by {
      forall i | 0 <= i < |format| ensures Lower(format)[i] != ',' {
        assert format[i] != ',';
      }
    }
    assert ',' !in lead by {
      assert lead == "data:image/" + Lower(format) + ";base64";
      forall i | 0 <= i < |lead| ensures lead[i] != ',' {
        if i < 11 {
          assert lead[i] == "data:image/"[i];
        } else if i < 11 + |format| {
          assert lead[i] == Lower(format)[i - 11];
        } else {
          assert lead[i] == ";base64"[i - 11 - |format|];
        }
      }
    }
    assert ',' !in payload by {
      forall i | 0 <= i < |payload| ensures payload[i] != ',' {
        assert IsBase64Char(payload[i]);
      }
    }
    assert Frame(format, payload) == Join([lead, payload], ',');
    SplitJoin([lead, payload], ',');
  }
}

=== FILE: hex_color.dfy ===
/**
 * The `#RRGGBB` colour text: the positional decoder the masker applies to its
 * target colour, the `'#{:02x}{:02x}{:02x}'` formatter the dominant-colour
 * endpoint applies to its cluster centres, and the request-level check
 * ("starts with `#`, length 7") that sits between them.
 */
module HexColor {
  import opened Outcomes
  import opened Ascii
  import opened Pixels

  /** The value of one base-16 digit, either case; `None` for any other character. */
  function DigitValue(c: char): (v: Option<nat>)
    ensures v.Some? ==> v.value < 16
  {
    if '0' <= c <= '9' then Some(c as int - '0' as int)
    else if 'a' <= c <= 'f' then Some(c as int - 'a' as int + 10)
    else if 'A' <= c <= 'F' then Some(c as int - 'A' as int + 10)
    else None
  }

  predicate IsHexDigit(c: char) {
    DigitValue(c).Some?
  }

  predicate AllHexDigits(s: string) {
    forall i :: 0 <= i < |s| ==> IsHexDigit(s[i])
  }

  function Pow16(n: nat): (p: nat)
    ensures p >= 1
  {
    if n == 0 then 1 else 16 * Pow16(n - 1)
  }

  /** The big-endian base-16 value of a run of hex digits. */
  function HexValue(s: string): (v: nat)
    requires AllHexDigits(s)
    ensures v < Pow16(|s|)
    decreases |s|
  {
    if |s| == 0 then 0
    else HexValue(s[..|s| - 1]) * 16 + DigitValue(s[|s| - 1]).value
  }

  /** Python's `int(s, 16)` over plain hex digits: `None` where Python raises. */
  function ParseHex(s: string): (v: Option<nat>)
    ensures v.Some? <==> |s| > 0 && AllHexDigits(s)
    ensures v.Some? ==> v.value < Pow16(|s|)
    ensures |s| == 1 && v.Some? ==> v.value == DigitValue(s[0]).value
    ensures |s| == 2 && v.Some? ==> v.value == 16 * DigitValue(s[0]).value + DigitValue(s[1]).value
  {
    TwoDigits(s);
    if |s| > 0 && AllHexDigits(s) then Some(HexValue(s)) else None
  }

  /** Python's slice `s[i:j]` for non-negative `i <= j`: indices past the end are clamped. */
  function Slice(s: string, i: nat, j: nat): (t: string)
    requires i <= j
    ensures |t| <= j - i
    ensures |s| >= j ==> t == s[i..j]
    ensures i <= |s| < j ==> t == s[i..]
    ensures |s| < i ==> t == []
  {
    var hi := if j <= |s| then j else |s|;
    var lo := if i <= hi then i else hi;
    s[lo..hi]
  }

  /**
   * The masker's decoding of its target colour: characters 1-2, 3-4 and 5-6
   * are read as base-16 bytes for red, green and blue.
   */
  function ParseColor(s: string): (c: Option<Rgb>)
    ensures |s| == 7 ==> (c.Some? <==> AllHexDigits(s[1..7]))
    ensures |s| == 7 && c.Some? ==>
      && IsHexDigit(s[1]) && IsHexDigit(s[2]) && IsHexDigit(s[3])
      && IsHexDigit(s[4]) && IsHexDigit(s[5]) && IsHexDigit(s[6])
    ensures |s| == 7 && c.Some? ==>
      && c.value.r == 16 * DigitValue(s[1]).value + DigitValue(s[2]).value
      && c.value.g == 16 * DigitValue(s[3]).value + DigitValue(s[4]).value
      && c.value.b == 16 * DigitValue(s[5]).value + DigitValue(s[6]).value
    ensures |s| < 6 ==> c.None?
  {
    var b := ParseHex(Slice(s, 5, 7));
    var g := ParseHex(Slice(s, 3, 5));
    var r := ParseHex(Slice(s, 1, 3));
    if |s| == 7 then
      TwoDigits(s[1..3]);
      TwoDigits(s[3..5]);
      TwoDigits(s[5..7]);
      SplitDigits(s[1..7]);
      FieldsOfSeven(s);
      assert Pow16(2) == 256;
      if r.Some? && g.Some? && b.Some? then Some(Rgb(r.value, g.value, b.value)) else None
    else if r.Some? && g.Some? && b.Some? then
      assert Pow16(2) == 256;
      Some(Rgb(r.value, g.value, b.value))
    else
      None
  }

  /** The three two-character fields of a seven-character colour string, seen from its last six characters. */
  lemma FieldsOfSeven(s: string)
    requires |s| == 7
    ensures s[1..7][..2] == s[1..3]
    ensures s[1..7][2..4] == s[3..5]
    ensures s[1..7][4..] == s[5..7]
  {
    var t := s[1..7];
    assert forall k :: 0 <= k < 2 ==> t[..2][k] == s[1 + k];
    assert forall k :: 0 <= k < 2 ==> t[2..4][k] == s[3 + k];
    assert forall k :: 0 <= k < 2 ==> t[4..][k] == s[5 + k];
  }

  /** A two-digit field is worth sixteen times its first digit plus its second. */
  lemma TwoDigits(t: string)
    ensures |t| == 2 && AllHexDigits(t) ==> HexValue(t) == 16 * DigitValue(t[0]).value + DigitValue(t[1]).value
  {
  }

  /** Six characters are all hex digits exactly when each of their three pairs is. */
  lemma SplitDigits(t: string)
    requires |t| == 6
    ensures AllHexDigits(t) <==> AllHexDigits(t[..2]) && AllHexDigits(t[2..4]) && AllHexDigits(t[4..])
  {
    if AllHexDigits(t[..2]) && AllHexDigits(t[2..4]) && AllHexDigits(t[4..]) {
      forall i | 0 <= i < 6 ensures IsHexDigit(t[i]) {
        if i < 2 { assert t[i] == t[..2][i]; }
        else if i < 4 { assert t[i] == t[2..4][i - 2]; }
        else { assert t[i] == t[4..][i - 4]; }
      }
    }
  }

  /** The request-level colour check: starts with `#` and has length 7. */
  function ValidColorString(s: string): (ok: bool)
    ensures ok ==> |s| > 0 && (ParseColor(s).Some? <==> AllHexDigits(s[1..]))
  {
    |s| == 7 && s[0] == '#'
  }

  /** The lower-case hex digit for `n`, as `format` spells it. */
  function Nibble(n: nat): (c: char)
    requires n < 16
    ensures DigitValue(c) == Some(n)
  {
    if n < 10 then ('0' as int + n) as char else ('a' as int + n - 10) as char
  }

  /** `'{:02x}'.format(b)` for one byte. */
  function FormatByte(b: byte): (s: string)
    ensures |s| == 2 && AllHexDigits(s)
    ensures 16 * DigitValue(s[0]).value + DigitValue(s[1]).value == b
  {
    [Nibble(b / 16), Nibble(b % 16)]
  }

  /** `'#{:02x}{:02x}{:02x}'.format(r, g, b)`. */
  function FormatColor(c: Rgb): (s: string)
    ensures ValidColorString(s)
    ensures AllHexDigits(s[1..])
  {
    "#" + FormatByte(c.r) + FormatByte(c.g) + FormatByte(c.b)
  }

  /** Any formatted colour passes the request check and decodes back to the same triple. */
  lemma FormatThenParse(c: Rgb)
    ensures ValidColorString(FormatColor(c))
    ensures ParseColor(FormatColor(c)) == Some(c)
  {
  }

  /** Spelling one parsed byte again gives its two digits in lower case. */
  lemma FormatParsedByte(hi: char, lo: char, b: byte)
    requires IsHexDigit(hi) && IsHexDigit(lo)
    requires b == 16 * DigitValue(hi).value + DigitValue(lo).value
    ensures FormatByte(b) == [LowerChar(hi), LowerChar(lo)]
  {
  }

  /**
   * The converse round trip: a checked colour string the decoder accepts is
   * the formatter's output up to letter case.
   */
  lemma ParseThenFormat(s: string)
    requires ValidColorString(s) && ParseColor(s).Some?
    ensures FormatColor(ParseColor(s).value) == Lower(s)
  {
    var c := ParseColor(s).value;
    assert IsHexDigit(s[1]) && IsHexDigit(s[2]) by { assert s[1] == s[1..7][0] && s[2] == s[1..7][1]; }
    assert IsHexDigit(s[3]) && IsHexDigit(s[4]) by { assert s[3] == s[1..7][2] && s[4] == s[1..7][3]; }
    assert IsHexDigit(s[5]) && IsHexDigit(s[6]) by { assert s[5] == s[1..7][4] && s[6] == s[1..7][5]; }
    FormatParsedByte(s[1], s[2], c.r);
    FormatParsedByte(s[3], s[4], c.g);
    FormatParsedByte(s[5], s[6], c.b);
    assert LowerChar('#') == '#';
  }

  /** The check only looks at `#` and the length: a string it accepts can still fail to decode. */
  lemma CheckAdmitsUndecodable()
    ensures ValidColorString("#ZZZZZZ") && ParseColor("#ZZZZZZ").None?
  {
  }
}

=== FILE: outcomes.dfy ===
/** Optional values: the model's stand-in for a Python call that may raise. */
module Outcomes {

  datatype Option<+T> = None | Some(value: T) {

    /** The wrapped value, or `default` when there is none (Python's `dict.get(key, default)`). */
    function GetOr(default: T): T {
      match this
      case Some(v) => v
      case None => default
    }
  }
}

=== FILE: output_format.dfy ===
/**
 * Output-format handling shared by both removal endpoints: normalising the
 * requested format name, and flattening an RGBA result onto white when the
 * format is JPEG (which has no alpha channel).
 */
module OutputFormat {
  import opened Outcomes
  import opened Ascii
  import opened Pixels

  /** The three format names the service accepts. */
  function IsKnownFormat(f: string): (known: bool)
    ensures known ==> Upper(f) == f
    ensures known ==> Lower(f) in {"png", "jpeg", "webp"}
  {
    assert Lower("PNG") == "png" && Lower("JPEG") == "jpeg" && Lower("WEBP") == "webp";
    f == "PNG" || f == "JPEG" || f == "WEBP"
  }

  /**
   * `data.get('format', 'PNG').upper()`, then anything unrecognised becomes
   * `PNG`. `None` is a request without a `format` field.
   */
  function NormalizeFormat(requested: Option<string>): (f: string)
    ensures IsKnownFormat(f)
    ensures requested.Some? && IsKnownFormat(Upper(requested.value)) ==> f == Upper(requested.value)
    ensures requested.Some? && !IsKnownFormat(Upper(requested.value)) ==> f == "PNG"
    ensures requested.None? ==> f == "PNG"
  {
    var up := Upper(requested.GetOr("PNG"));
    if IsKnownFormat(up) then up else "PNG"
  }

  /** Normalising an already normalised name changes nothing. */
  lemma NormalizeIdempotent(requested: Option<string>)
    ensures NormalizeFormat(Some(NormalizeFormat(requested))) == NormalizeFormat(requested)
  {
  }

  /** A recognised name is recognised in any letter case: `png`, `Png` and `PNG` all give `PNG`. */
  lemma NormalizeIgnoresCase(s: string)
    ensures NormalizeFormat(Some(Lower(s))) == NormalizeFormat(Some(s))
    ensures NormalizeFormat(Some(Upper(s))) == NormalizeFormat(Some(s))
  {
    UpperIgnoresCase(s);
  }

  /** Pasting one pixel onto white through its own binary alpha. */
  function FlattenPixel(q: Rgba): (p: Rgb)
    requires q.a == 0 || q.a == 255
    ensures q.a == 0 ==> p == White
    ensures q.a == 255 ==> p == Colour(q)
  {
    if q.a == 0 then White else Colour(q)
  }

  function FlattenRow(row: seq<Rgba>): (out: seq<Rgb>)
    requires forall j :: 0 <= j < |row| ==> row[j].a == 0 || row[j].a == 255
    ensures |out| == |row|
    ensures forall j :: 0 <= j < |row| ==> out[j] == FlattenPixel(row[j])
  {
    if |row| == 0 then []
    else [FlattenPixel(row[0])] + FlattenRow(row[1..])
  }

  function FlattenGrid(g: Grid<Rgba>): (out: Grid<Rgb>)
    requires BinaryAlpha(g)
    ensures SameShape(g, out)
    ensures forall i, j :: 0 <= i < |g| && 0 <= j < |g[i]| ==>
      out[i][j] == (if g[i][j].a == 0 then White else Colour(g[i][j]))
  {
    if |g| == 0 then []
    else [FlattenRow(g[0])] + FlattenGrid(g[1..])
  }

  /**
   * The JPEG branch: a white RGB canvas of the same size with an RGBA image
   * pasted through its own alpha; any other mode passes through untouched.
   */
  function FlattenForJpeg(img: Image): (out: Image)
    requires img.RgbaImage? ==> BinaryAlpha(img.rgba)
    ensures img.RgbImage? ==> out == img
    ensures img.RgbaImage? ==> out.RgbImage? && SameShape(img.rgba, out.rgb)
    ensures img.RgbaImage? ==> forall i, j :: 0 <= i < |img.rgba| && 0 <= j < |img.rgba[i]| ==>
      && (img.rgba[i][j].a == 0 ==> out.rgb[i][j] == White)
      && (img.rgba[i][j].a == 255 ==> out.rgb[i][j] == Colour(img.rgba[i][j]))
  {
    match img
    case RgbImage(_) => img
    case RgbaImage(g) => RgbImage(FlattenGrid(g))
  }

  /** The conversion step before encoding: only JPEG changes the image. */
  function ConvertForFormat(img: Image, format: string): (out: Image)
    requires img.RgbaImage? ==> BinaryAlpha(img.rgba)
    ensures format != "JPEG" ==> out == img
    ensures format == "JPEG" ==> out == FlattenForJpeg(img) && out.RgbImage?
  {
    if format == "JPEG" then FlattenForJpeg(img) else img
  }
}

=== FILE: pixels.dfy ===
/** Pixels and images: 8-bit RGB and RGBA pixels laid out in rows. */
module Pixels {

  /** One 8-bit channel value. */
  type byte = x: int | 0 <= x < 256

  datatype Rgb = Rgb(r: byte, g: byte, b: byte)

  datatype Rgba = Rgba(r: byte, g: byte, b: byte, a: byte)

  /** Pixels in row-major order: `rows[y][x]`. */
  type Grid<T> = seq<seq<T>>

  /** A decoded image in one of the two modes the service produces. */
  datatype Image = RgbImage(rgb: Grid<Rgb>) | RgbaImage(rgba: Grid<Rgba>)

  /** The fully transparent pixel the masker writes. */
  const Clear: Rgba := Rgba(0, 0, 0, 0)

  /** The canvas colour JPEG output is flattened onto. */
  const White: Rgb := Rgb(255, 255, 255)

  /** The colour with alpha 255 added (OpenCV's BGR2RGBA conversion). */
  function Opaque(p: Rgb): Rgba {
    Rgba(p.r, p.g, p.b, 255)
  }

  /** The colour channels of an RGBA pixel. */
  function Colour(q: Rgba): Rgb {
    Rgb(q.r, q.g, q.b)
  }

  /** Two grids have the same number of rows and equally long rows. */
  ghost predicate SameShape<A, B>(x: Grid<A>, y: Grid<B>) {
    && |x| == |y|
    && forall i :: 0 <= i < |x| ==> |x[i]| == |y[i]|
  }

  /** Every pixel is either fully transparent or fully opaque. */
  predicate BinaryAlpha(g: Grid<Rgba>) {
    forall i, j :: 0 <= i < |g| && 0 <= j < |g[i]| ==> g[i][j].a == 0 || g[i][j].a == 255
  }

  /** A `height` by `width` image of one colour. */
  function Solid<T>(width: nat, height: nat, p: T): (g: Grid<T>)
    ensures |g| == height
    ensures forall i :: 0 <= i < height ==> |g[i]| == width
    ensures forall i, j :: 0 <= i < height && 0 <= j < width ==> g[i][j] == p
  {
    seq(height, _ => seq(width, _ => p))
  }
}
